=== FILE: README.md ===
# book_offers: a Dafny model of the order-book request handler

This project models the `book_offers` RPC handler of a rippled-derived ledger node
(`src/ripple/module/rpc/handlers/BookOffers.cpp`). Given a request document and a snapshot of
node state, the handler answers with the open offers between two assets. It has three modes:

- **single pair** (`taker_pays` / `taker_gets`): strict, fail-fast validation of the two legs,
  the taker, the market and the limit, then exactly one `getBookPage` call;
- **list** (`currencies`, optionally `all_book`): a walk over the order-book directory that
  fetches every book, or only the books whose currencies match an ordered pair of list entries;
- **batch** (`map_pays`): for each entry `[pays currency, pays issuer, gets currency, gets issuer]`,
  a fetch of the book and then of the reversed book.

Before any of these, an admission gate sheds the request when more than 200 client jobs are
queued, and the requested ledger must resolve.

The model is functional. A reply (`Handler.Reply`) is an error, or the ordered trace of
`getBookPage` calls together with the `offers` array built from them. Everything the handler
calls but does not define is a function-valued field of `Collaborators.Env`. The properties
hold whatever those functions return, except for one assumption about `to_currency` and
`to_issuer` on rejected text (below). The fields cover `to_currency`, `to_issuer`,
`RippleAddress::setAccountID`, the JSON library's `asUInt`, `asString` and iteration, and
`getBookPage`. Node state is part of `Handler.Request`: the client job count, the ledger
`lookupLedger` resolves, the published ledger and the order-book directory.

Modules, leaf first: `Results` (Option/Result), `Identifiers` (currencies, accounts, issues,
books), `JsonModel`, `RpcErrors`, `Collaborators`, `PairValidator` (the single-pair checks as
the handler performs them), `CheckTable` (the same checks as one ordered table, and the proof
that the handler follows it), `ListMode`, `BatchMode`, `Handler` (the dispatcher).

Modelling choices:

- Currency codes and account IDs are 160-bit values. XRP's currency and XRP's pseudo-issuer
  are zero, and `noAccount` is one. A default-constructed code or account is taken to be zero.
- When `to_currency` or `to_issuer` rejects its text, its output variable is taken to keep
  its previous value. The bodies of these parsers are not part of this model, so this is an
  assumption, not something BookOffers.cpp establishes.
- `isObject`, `isString` and `isIntegral` are read as exact tests of the JSON type tag.
  `isIntegral` means a signed or unsigned integer.

Behaviour of the code the model keeps:

- List and batch modes fetch against the *published* ledger, not the ledger the request
  resolved. The resolved ledger is still required: without it the handler returns early.
- Each fetch's `offers` array is appended to the reply's `offers` as *one* element. The reply
  is an array of arrays, one per fetch, not a flat list of offers.
- In list mode a list entry that is not a currency is not skipped. The handler ignores the
  parse's result and the book comparison still runs. With a rejected parse taken to leave the
  previous code in place, the comparison uses that code
  (`ListMode.MalformedEntryReusesPreviousCurrency`).
- In batch mode an entry with fewer than four positions reuses what the previous entry left
  in the loop's variables. So does a position that does not parse, under the same assumption
  about rejected parses. Only the first entry starts
  from zero (`BatchMode.ShortEntryReusesPrevious`).
- A request with both `currencies` and `map_pays` runs list mode. That is the code's fixed
  priority; no combination is rejected.

## Model

| member | source | states |
|---|---|---|
| `Handler.BookOffers` | src/ripple/module/rpc/handlers/BookOffers.cpp:30-226 | The reply is the busy error exactly when more than 200 client jobs are queued. It is the lookup's own reply exactly when the gate passes and no ledger resolves. Validation errors arise only in single-pair mode. A single page is fetched against the requested ledger, and list and batch pages against the published one. `offers` holds each call's page offers in call order. |
| `Handler.ListReply` | src/ripple/module/rpc/handlers/BookOffers.cpp:228-240 | List mode reads the published ledger. Without one there is no `offers` member. With one, every fetch is against it and `offers` holds one element per fetch. |
| `Handler.BatchReply` | src/ripple/module/rpc/handlers/BookOffers.cpp:301-310 | Batch mode reads the published ledger. Without one there is no `offers` member. With one, every fetch is against it and `offers` holds one element per fetch. |
| `Handler.PairReply` | src/ripple/module/rpc/handlers/BookOffers.cpp:74-225 | Single-pair mode either rejects with a validation error, never the busy error, or fetches one page against the requested ledger and returns that page. |
| `Handler.BusyShedsEverything` | src/ripple/module/rpc/handlers/BookOffers.cpp:35-36 | Over the threshold, every request gets the same busy error with no fetch, whatever its ledgers, directory and members. |
| `Handler.SinglePairReply` | src/ripple/module/rpc/handlers/BookOffers.cpp:74-225 | In single-pair mode, the reply is the first failing check's error with an empty trace. When no check fails, there is exactly one fetch: book `{pays, gets}`, the validated taker, `proof` = presence of the member, the computed limit and the caller's marker (null if absent). The load is medium. |
| `Handler.ListModeRuns` | src/ripple/module/rpc/handlers/BookOffers.cpp:45-61 | With `currencies` present, the list walk runs with `all_book` and `limit` (0 when absent), whatever else the request holds. |
| `Handler.BatchModeRuns` | src/ripple/module/rpc/handlers/BookOffers.cpp:63-72 | Without `currencies` but with `map_pays`, the batch walk runs with `limit` (0 when absent). |
| `Handler.ListModeIgnoresOtherMembers` | src/ripple/module/rpc/handlers/BookOffers.cpp:45-61 | List mode's reply depends only on `currencies`, `all_book` and `limit`. The single-pair members and `map_pays` are never examined. |
| `Handler.BatchModeIgnoresOtherMembers` | src/ripple/module/rpc/handlers/BookOffers.cpp:63-72 | Batch mode's reply depends only on `map_pays` and `limit`. The single-pair members are never examined. |
| `Handler.OneEntryBatch` | src/ripple/module/rpc/handlers/BookOffers.cpp:319-352 | One batch entry whose four strings parse makes exactly two fetches, forward then reversed. `offers` is the two pages' offers in that order. |
| `Handler.EveryBookOffers` | src/ripple/module/rpc/handlers/BookOffers.cpp:250-293 | With `all_book` nonzero, `offers` has one element per directory book. Element i is the offers of the page fetched, plain and against the published ledger, for the directory's i-th book. |
| `Handler.BatchOffersByEntry` | src/ripple/module/rpc/handlers/BookOffers.cpp:319-352 | `offers` has two elements per `map_pays` entry. Element 2k is the page of entry k's forward book, built from the loop variables after entries 0 to k. Element 2k+1 is the page of the reversed book. Both are plain fetches against the published ledger. |
| `PairValidator.Validate` | src/ripple/module/rpc/handlers/BookOffers.cpp:74-216 | An accepted query's book has two issues that each obey the native-asset rule, have an issuer other than `noAccount`, and differ. Its `proof` is the presence of the member, and its marker is the caller's or null. |
| `PairValidator.PairBook` | src/ripple/module/rpc/handlers/BookOffers.cpp:120-179 | The book keeps each leg's currency. Both of its issues obey the native-asset rule and have an issuer other than `noAccount`. |
| `PairValidator.FinishQuery` | src/ripple/module/rpc/handlers/BookOffers.cpp:181-216 | A book whose two issues are equal is always rejected. An accepted query asks for the given book, with `proof` the presence of the member and the caller's marker or null. |
| `PairValidator.DeclaredIssuer` | src/ripple/module/rpc/handlers/BookOffers.cpp:120-139 | An absent issuer is XRP's pseudo-issuer. An accepted one is never `noAccount`. |
| `PairValidator.LegIssuer` | src/ripple/module/rpc/handlers/BookOffers.cpp:120-179 | An accepted issuer obeys the native-asset rule with its leg's currency and is not `noAccount`. Every rejection is the string-type error or carries the leg's ISR code: SRC for pays, DST for gets. |
| `CheckTable.ValidateFollowsTable` | src/ripple/module/rpc/handlers/BookOffers.cpp:74-216 | Validation fails with the error of the first failing entry of the ordered 24-check table. It succeeds, with the query built from the parsed legs, exactly when no entry fails. |
| `CheckTable.LegPhase` | src/ripple/module/rpc/handlers/BookOffers.cpp:74-84 | Presence of `taker_pays`, then `taker_gets`, then their object type, in that order. |
| `CheckTable.CurrencyTextPhase` | src/ripple/module/rpc/handlers/BookOffers.cpp:88-100 | A leg's `currency` must be present and then be a string. Each failure has its own error. |
| `CheckTable.CurrencyParsePhase` | src/ripple/module/rpc/handlers/BookOffers.cpp:102-118 | The pays currency must parse (SRC_CUR_MALFORMED) before the gets currency (DST_AMT_MALFORMED). Both parsing is the only way through. |
| `CheckTable.CurrencyPhase` | src/ripple/module/rpc/handlers/BookOffers.cpp:88-118 | Both legs' currency text checks, pays first, precede both parses. On success the two parsed codes are returned. |
| `CheckTable.DeclaredIssuerPhase` | src/ripple/module/rpc/handlers/BookOffers.cpp:120-139 | A present issuer must be a string, then parse, then not be `noAccount`. An absent one defaults to XRP's pseudo-issuer. |
| `CheckTable.NativeRulePhase` | src/ripple/module/rpc/handlers/BookOffers.cpp:141-148 | A leg passes exactly when its issue obeys the native-asset rule. An XRP currency with another issuer is reported before a non-XRP currency with XRP's issuer. |
| `CheckTable.IssuerPhase` | src/ripple/module/rpc/handlers/BookOffers.cpp:120-179 | A leg's declared-issuer checks precede its native-asset checks. |
| `CheckTable.TakerPhase` | src/ripple/module/rpc/handlers/BookOffers.cpp:181-194 | A present `taker` must be a string and then parse. An absent one means `noAccount`. |
| `CheckTable.FinalPhase` | src/ripple/module/rpc/handlers/BookOffers.cpp:196-206 | Equal issues give BAD_MARKET, before the limit is looked at. A present non-integral limit then fails with "expected integer". |
| `CheckTable.BookPhase` | src/ripple/module/rpc/handlers/BookOffers.cpp:120-179 | The book stage follows its part of the table: the pays issuer checks, then the gets issuer checks. When none fails, the book is `{pays, gets}` of the parsed legs. |
| `CheckTable.QueryPhase` | src/ripple/module/rpc/handlers/BookOffers.cpp:181-216 | The stage after the book follows its part of the table: the taker checks, the same-market check, then the limit's type. When none fails, the query is the one built from the parsed request. |
| `ListMode.Books` | src/ripple/module/rpc/handlers/BookOffers.cpp:250-253 | The directory walk visits exactly the books of the directory's entries. |
| `ListMode.Cross` | src/ripple/module/rpc/handlers/BookOffers.cpp:259-262 | The nested range-for makes |xs|·|ys| visits, each of a pair of list entries. |
| `ListMode.CrossAt` | src/ripple/module/rpc/handlers/BookOffers.cpp:259-262 | Visit i·|ys|+j is the pair (xs[i], ys[j]). Every ordered pair occurs, with `it1` in the outer loop and `it2` in the inner one. |
| `ListMode.Scan` | src/ripple/module/rpc/handlers/BookOffers.cpp:257-286 | The filtered walk fetches at most once per visited (book, entry, entry) step. |
| `ListMode.ScanVisits` | src/ripple/module/rpc/handlers/BookOffers.cpp:275-281 | Every fetched book is the book of a visited step. |
| `ListMode.ScanIsFetched` | src/ripple/module/rpc/handlers/BookOffers.cpp:245-286 | For any list, including entries that do not parse, the filtered walk fetches exactly the steps whose book's `pays` and `gets` currencies equal the codes of the last parsing first entry and the last parsing second entry so far (the cursor's values when none parsed), in step order. |
| `ListMode.FilteredWalk` | src/ripple/module/rpc/handlers/BookOffers.cpp:250-286 | With `all_book` zero, list mode's fetched books, for any list, are the matching steps of books × entries × entries in directory order, starting from XRP for both currencies. |
| `ListMode.Walk` | src/ripple/module/rpc/handlers/BookOffers.cpp:228-296 | Every list-mode fetch is of a directory book, against the given ledger, with taker `noAccount`, no proof, a null marker and the shared limit. |
| `ListMode.ScanIsSelect` | src/ripple/module/rpc/handlers/BookOffers.cpp:263-282 | When every entry parses, the currencies carried between steps make no difference. The walk fetches a step's book exactly when the step's two entries parse to the book's currencies. |
| `ListMode.SelectOneBook` | src/ripple/module/rpc/handlers/BookOffers.cpp:259-284 | One book is fetched (matches of its `pays` currency) × (matches of its `gets` currency) times, so duplicate list entries duplicate fetches. |
| `ListMode.FilteredWalkWhenAllParse` | src/ripple/module/rpc/handlers/BookOffers.cpp:250-296 | With `all_book` zero and every entry parsing, fetches go book after book in directory order. Each book is fetched once per ordered pair of entries naming its currencies. |
| `ListMode.EveryBookWalk` | src/ripple/module/rpc/handlers/BookOffers.cpp:287-293 | With `all_book` nonzero, every directory book is fetched once, in directory order, regardless of the list. |
| `ListMode.MalformedEntryReusesPreviousCurrency` | src/ripple/module/rpc/handlers/BookOffers.cpp:245-276 | A failed parse keeps the previous code and does not stop the walk. For a USD/USD book, the list `["USD", "x"]` fetches it four times and `["USD"]` once. |
| `BatchMode.Read` | src/ripple/module/rpc/handlers/BookOffers.cpp:322-335 | Position 0 sets the pays currency, 1 the pays issuer, 2 the gets currency and 3 the gets issuer. Each is parsed from the position's text and keeps the old value when the text does not parse. Variables past the entry's length keep their values, and positions past 3 change nothing. |
| `BatchMode.ReadEntry` | src/ripple/module/rpc/handlers/BookOffers.cpp:322-335 | The counted inner loop computes exactly `Read`. |
| `BatchMode.Walk` | src/ripple/module/rpc/handlers/BookOffers.cpp:319-352 | Batch mode makes two fetches per entry, all plain with the shared limit. Entry k's forward book is built from the variables after reading entries 0..k, and the next fetch is its reversal. |
| `BatchMode.OnlyFirstFourPositionsRead` | src/ripple/module/rpc/handlers/BookOffers.cpp:324-335 | Entry lists that agree on positions 0-3 of every entry produce the same fetches. |
| `BatchMode.ShortEntryReusesPrevious` | src/ripple/module/rpc/handlers/BookOffers.cpp:312-335 | An entry missing positions reuses, in its forward book, the previous entry's values for them. The first entry falls back to zero. |

## Left out

- The fields `RPC::lookupLedger` writes into the reply, and the contents of its error reply, are not modelled. Only whether a ledger resolved is.
- What `getBookPage` writes besides the offers array and the marker is not modelled. Neither is whether it clears the reused `jvOffer` value between calls: each call's page is taken as its own.
- Logging, the job queue and the order-book database's internals are not modelled. Neither is any concurrency around the shared ledger: the published ledger and the directory are inputs read once.
- Resource accounting is modelled only as the load-type flag that single-pair success sets.
- Iterating a JSON value, `asUInt` (including its behaviour on negative or non-integral `limit`/`all_book` in list and batch modes) and `asString` on non-strings are uninterpreted: they belong to the JSON library.
- Integer widths of the JSON library's numbers are not modelled (`Int`/`UInt` are unbounded). `asUInt` returns a 32-bit value.
- `ListMode.FilteredWalkWhenAllParse` states the count-based reference (each book fetched once per ordered pair of entries naming its currencies) only when every listed currency parses. For lists with malformed entries the walk is characterised by `ListMode.ScanIsFetched` instead.
- `ListMode.ScanIsFetched`, `ListMode.FilteredWalk`, `ListMode.MalformedEntryReusesPreviousCurrency` and `BatchMode.Read` (its keep-the-old-value clauses) rest on an assumption: when `to_currency` or `to_issuer` rejects its text, the output variable keeps its old value. The handler ignores both parsers' results (BookOffers.cpp lines 266, 271 and 327-333) and goes on using the variables. The parsers' bodies are not part of this model, so whatever a real rejected parse leaves there (a zeroed value, say) is not modelled.
- `ListMode.Scan`'s own contract only bounds the number of fetches. Which steps fetch is stated by `ListMode.ScanIsFetched`, and which books can appear by `ListMode.ScanVisits`.
- `isObject` and `isIntegral` are read as exact type-tag tests. The JSON library is not part of this model. If its `isObject` also accepts null and its `isIntegral` also accepts booleans, the code differs from the model in two cases. A null `taker_pays` would pass the object check and fail later with the missing `taker_pays.currency` error, where the model reports the leg as not an object. A boolean `limit` would be accepted as 0 or 1, where the model rejects it as not an integer.
- In single-pair mode, a negative integer `limit` passes the `isIntegral` check and reaches `asUInt`, which in the JSON library rejects negative values by throwing. The model does not model that failure: `asUInt` is uninterpreted and always returns a value.

=== FILE: batch_mode.dfy ===
/**
 * Batch mode of `book_offers` (`getBookPageByMap`): a request with a `map_pays` member lists
 * entries `[pays currency, pays issuer, gets currency, gets issuer]`; each entry fetches its
 * book and then the reversed book.
 */
module BatchMode {
  import opened Results
  import opened Identifiers
  import opened JsonModel
  import opened Collaborators

  /**
   * The four variables the batch loop fills from entry positions 0 to 3. They are declared
   * once, before the loop, so each entry starts from what the previous entry left.
   */
  datatype Vars = Vars(payCurrency: Currency, payIssuer: Account, getCurrency: Currency, getIssuer: Account) {

    /** The book `{{payCurrency, payIssuer}, {getCurrency, getIssuer}}`. */
    function Forward(): Book {
      Book(Issue(payCurrency, payIssuer), Issue(getCurrency, getIssuer))
    }
  }

  /** The variables before the first entry: default-constructed, that is, all zero. */
  const Blank: Vars := Vars(XrpCurrency, XrpAccount, XrpCurrency, XrpAccount)

  /** `to_currency(current, text)`: the parsed code, or `current` when the text is not one. */
  function CurrencyOr(env: Env, v: Json, current: Currency): Currency {
    env.toCurrency(Text(env, v)).GetOr(current)
  }

  /** `to_issuer(current, text)`: the parsed account, or `current` when the text is not one. */
  function IssuerOr(env: Env, v: Json, current: Account): Account {
    env.toIssuer(Text(env, v)).GetOr(current)
  }

  /**
   * The variables after reading one entry: position 0 is the pays currency, 1 the pays
   * issuer, 2 the gets currency, 3 the gets issuer. A variable whose position the entry does
   * not have keeps its value, and positions past 3 change nothing.
   */
  function Read(env: Env, vars: Vars, items: seq<Json>): (r: Vars)
    ensures |items| > 0 ==> r.payCurrency == CurrencyOr(env, items[0], vars.payCurrency)
    ensures |items| > 1 ==> r.payIssuer == IssuerOr(env, items[1], vars.payIssuer)
    ensures |items| > 2 ==> r.getCurrency == CurrencyOr(env, items[2], vars.getCurrency)
    ensures |items| > 3 ==> r.getIssuer == IssuerOr(env, items[3], vars.getIssuer)
    ensures |items| == 0 ==> r == vars
    ensures |items| <= 1 ==> r.payIssuer == vars.payIssuer
    ensures |items| <= 2 ==> r.getCurrency == vars.getCurrency
    ensures |items| <= 3 ==> r.getIssuer == vars.getIssuer
    ensures |items| > 4 ==> r == Read(env, vars, items[..4])
  {
    var a := if |items| > 0 then vars.(payCurrency := CurrencyOr(env, items[0], vars.payCurrency)) else vars;
    var b := if |items| > 1 then a.(payIssuer := IssuerOr(env, items[1], a.payIssuer)) else a;
    var c := if |items| > 2 then b.(getCurrency := CurrencyOr(env, items[2], b.getCurrency)) else b;
    if |items| > 3 then c.(getIssuer := IssuerOr(env, items[3], c.getIssuer)) else c
  }

  /** The inner loop over one entry, with its position counter. */
  method ReadEntry(env: Env, vars: Vars, items: seq<Json>) returns (r: Vars)
    ensures r == Read(env, vars, items)
  {
    r := vars;
    var count := 0;
    while count < |items|
      invariant 0 <= count <= |items|
      invariant r == Read(env, vars, items[..count])
    {
      var item := items[count];
      if count == 0 {
        r := r.(payCurrency := CurrencyOr(env, item, r.payCurrency));
      }
      if count == 1 {
        r := r.(payIssuer := IssuerOr(env, item, r.payIssuer));
      }
      if count == 2 {
        r := r.(getCurrency := CurrencyOr(env, item, r.getCurrency));
      }
      if count == 3 {
        r := r.(getIssuer := IssuerOr(env, item, r.getIssuer));
      }
      assert items[..count + 1][..count] == items[..count];
      count := count + 1;
    }
    assert items[..count] == items;
  }

  /** The variables after reading `entries` in order, starting from `Blank`. */
  function VarsAfter(env: Env, entries: seq<Json>): Vars
    decreases |entries|
  {
    if entries == [] then Blank
    else Read(env, VarsAfter(env, entries[..|entries| - 1]), env.elements(entries[|entries| - 1]))
  }

  /**
   * The fetches of batch mode: for each entry, in order, its forward book and then the
   * reversed book, both plain (no taker filter, no proof, null marker, the shared limit).
   */
  function Walk(env: Env, ledger: Ledger, entries: seq<Json>, limit: UInt32): (calls: seq<Fetch>)
    ensures |calls| == 2 * |entries|
    ensures forall i :: 0 <= i < |calls| ==> IsPlain(calls[i], ledger, limit)
    ensures forall i :: 0 <= i < |calls| && i % 2 == 0 ==>
              calls[i].book == VarsAfter(env, entries[..i / 2 + 1]).Forward()
    ensures forall i :: 0 <= i < |calls| && i % 2 == 1 ==> calls[i].book == calls[i - 1].book.Reversed()
    decreases |entries|
  {
    if entries == [] then []
    else
      var n := |entries| - 1;
      var earlier := Walk(env, ledger, entries[..n], limit);
      assert forall i :: 0 <= i < |earlier| ==> entries[..n][..i / 2 + 1] == entries[..i / 2 + 1];
      var book := VarsAfter(env, entries).Forward();
      assert entries[..n + 1] == entries;
      earlier + [PlainFetch(ledger, book, limit), PlainFetch(ledger, book.Reversed(), limit)]
  }

  /** An entry's first four positions, the only ones the loop acts on. */
  function FirstFour(items: seq<Json>): seq<Json> {
    if |items| <= 4 then items else items[..4]
  }

  lemma {:induction false} VarsAfterFirstFour(env: Env, a: seq<Json>, b: seq<Json>)
    requires |a| == |b|
    requires forall k :: 0 <= k < |a| ==> FirstFour(env.elements(a[k])) == FirstFour(env.elements(b[k]))
    ensures VarsAfter(env, a) == VarsAfter(env, b)
    decreases |a|
  {
    if a != [] {
      var n := |a| - 1;
      VarsAfterFirstFour(env, a[..n], b[..n]);
      var before := VarsAfter(env, a[..n]);
      assert Read(env, before, env.elements(a[n])) == Read(env, before, FirstFour(env.elements(a[n])));
      assert Read(env, before, env.elements(b[n])) == Read(env, before, FirstFour(env.elements(b[n])));
    }
  }

  /** Positions past 3 of any entry are ignored: entries that agree on 0 to 3 fetch the same. */
  lemma {:induction false} OnlyFirstFourPositionsRead(env: Env, ledger: Ledger, a: seq<Json>, b: seq<Json>,
                                                      limit: UInt32)
    requires |a| == |b|
    requires forall k :: 0 <= k < |a| ==> FirstFour(env.elements(a[k])) == FirstFour(env.elements(b[k]))
    ensures Walk(env, ledger, a, limit) == Walk(env, ledger, b, limit)
    decreases |a|
  {
    if a != [] {
      var n := |a| - 1;
      OnlyFirstFourPositionsRead(env, ledger, a[..n], b[..n], limit);
      VarsAfterFirstFour(env, a, b);
    }
  }

  /**
   * An entry with fewer than four positions leaves the variables it does not reach as the
   * previous entry set them (as `Blank` for the first entry), so its forward book reuses them.
   */
  lemma ShortEntryReusesPrevious(env: Env, ledger: Ledger, entries: seq<Json>, limit: UInt32, k: nat)
    requires k < |entries|
    ensures var calls := Walk(env, ledger, entries, limit);
      var items := env.elements(entries[k]);
      var book := calls[2 * k].book;
      var previous := if k == 0 then Blank.Forward() else calls[2 * k - 2].book;
      && (|items| == 0 ==> book == previous)
      && (|items| <= 1 ==> book.pays.account == previous.pays.account)
      && (|items| <= 2 ==> book.gets.currency == previous.gets.currency)
      && (|items| <= 3 ==> book.gets.account == previous.gets.account)
  {
    var calls := Walk(env, ledger, entries, limit);
    var i := 2 * k;
    assert i % 2 == 0 && i / 2 + 1 == k + 1;
    var prefix := entries[..k + 1];
    assert prefix[..|prefix| - 1] == entries[..k];
    assert prefix[|prefix| - 1] == entries[k];
    if k > 0 {
      assert (i - 2) % 2 == 0 && (i - 2) / 2 + 1 == k;
    }
  }
}

=== FILE: check_table.dfy ===
/**
 * A reference statement of the single-pair validation: the handler's checks as one flat,
 * ordered table of (fails, error) entries over the request, each entry readable on its own.
 * The lemma `ValidateFollowsTable` shows that `PairValidator.Validate` answers with the error of
 * the first failing entry, and succeeds exactly when no entry fails.
 */
module CheckTable {
  import opened Results
  import opened Identifiers
  import opened JsonModel
  import opened RpcErrors
  import opened Collaborators
  import opened PairValidator

  datatype Check = Check(fails: bool, error: RpcError)

  /** The error of the earliest failing check, if any check fails. */
  function FirstFailure(cs: seq<Check>): Option<RpcError> {
    if cs == [] then None
    else if cs[0].fails then Some(cs[0].error)
    else FirstFailure(cs[1..])
  }

  /**
   * `FirstFailure` finds nothing exactly when no check fails, and otherwise finds the error of
   * a failing check that every earlier check passes.
   */
  lemma {:induction false} FirstFailureMeans(cs: seq<Check>)
    ensures FirstFailure(cs).None? <==> forall i :: 0 <= i < |cs| ==> !cs[i].fails
    ensures FirstFailure(cs).Some? ==>
              exists i :: 0 <= i < |cs| && cs[i].fails && cs[i].error == FirstFailure(cs).value
                          && forall j :: 0 <= j < i ==> !cs[j].fails
  {
    if cs != [] && !cs[0].fails {
      FirstFailureMeans(cs[1..]);
      assert forall i :: 1 <= i < |cs| ==> cs[i] == cs[1..][i - 1];
      if FirstFailure(cs).Some? {
        var k :| 0 <= k < |cs[1..]| && cs[1..][k].fails && cs[1..][k].error == FirstFailure(cs).value
                 && forall j :: 0 <= j < k ==> !cs[1..][j].fails;
        assert cs[k + 1] == cs[1..][k];
      }
    }
  }

  /** The members of a leg object, or none when the leg is missing or not an object. */
  function LegFields(p: Params, side: Side): Params {
    Fields(Member(p, side.Key()))
  }

  /** The leg's `currency` member, null when absent. */
  function CurrencyMember(p: Params, side: Side): Json {
    Member(LegFields(p, side), "currency")
  }

  /** The leg's parsed currency (XRP when it does not parse; that case fails earlier). */
  function CurrencyOf(env: Env, p: Params, side: Side): Currency {
    env.toCurrency(Text(env, CurrencyMember(p, side))).GetOr(XrpCurrency)
  }

  /** The leg's parsed `issuer` member, or None when it is absent or does not parse. */
  function IssuerMember(env: Env, p: Params, side: Side): Option<Account> {
    var leg := LegFields(p, side);
    if "issuer" in leg then env.toIssuer(Text(env, leg["issuer"])) else None
  }

  /** The leg's issuer: XRP's pseudo-issuer when the member is absent. */
  function IssuerOf(env: Env, p: Params, side: Side): Account {
    if "issuer" in LegFields(p, side) then IssuerMember(env, p, side).GetOr(XrpAccount) else XrpAccount
  }

  function IssueOf(env: Env, p: Params, side: Side): Issue {
    Issue(CurrencyOf(env, p, side), IssuerOf(env, p, side))
  }

  /** The taker filter: `noAccount` unless a `taker` is given. */
  function TakerOf(env: Env, p: Params): Account {
    if "taker" in p then env.toAccountID(Text(env, p["taker"])).GetOr(NoAccount) else NoAccount
  }

  /** The query a request that passes every check asks for. */
  function QueryOf(env: Env, p: Params): Query {
    Query(Book(IssueOf(env, p, Pays), IssueOf(env, p, Gets)), TakerOf(env, p),
          "proof" in p, UIntOrZero(env, p, "limit"), Member(p, "marker"))
  }

  /** The checks of a leg's `issuer` member, when it is present. */
  function DeclaredIssuerChecks(env: Env, p: Params, side: Side): seq<Check> {
    var leg := LegFields(p, side);
    var present := "issuer" in leg;
    [ Check(present && !IsString(leg["issuer"]), Expected(MemberName(side, "issuer"), "string")),
      Check(present && IssuerMember(env, p, side).None?, Coded(side.IssuerCode(), BadIssuer(side))),
      Check(present && IssuerMember(env, p, side) == Some(NoAccount),
            Coded(side.IssuerCode(), IssuerIsAccountOne(side))) ]
  }

  /** The native-asset rule on a leg's currency and issuer, in both directions. */
  function NativeRuleChecks(env: Env, p: Params, side: Side): seq<Check> {
    var currency := CurrencyOf(env, p, side);
    var issuer := IssuerOf(env, p, side);
    [ Check(IsXrpCurrency(currency) && !IsXrpAccount(issuer),
            Coded(side.IssuerCode(), UnneededIssuer(side))),
      Check(!IsXrpCurrency(currency) && IsXrpAccount(issuer),
            Coded(side.IssuerCode(), NeedsNonXrpIssuer(side))) ]
  }

  /** The issuer checks of one leg, in order. */
  function IssuerChecks(env: Env, p: Params, side: Side): seq<Check> {
    DeclaredIssuerChecks(env, p, side) + NativeRuleChecks(env, p, side)
  }

  /** Both legs present, then both legs objects. */
  function LegChecks(p: Params): seq<Check> {
    [ Check("taker_pays" !in p, MissingField("taker_pays")),
      Check("taker_gets" !in p, MissingField("taker_gets")),
      Check(!IsObject(Member(p, "taker_pays")), NotObject("taker_pays")),
      Check(!IsObject(Member(p, "taker_gets")), NotObject("taker_gets")) ]
  }

  /** A leg's `currency` member must be present, then be a string. */
  function CurrencyTextChecks(p: Params, side: Side): seq<Check> {
    [ Check("currency" !in LegFields(p, side), MissingField(MemberName(side, "currency"))),
      Check(!IsString(CurrencyMember(p, side)), Expected(MemberName(side, "currency"), "string")) ]
  }

  /** Both currencies must parse, pays before gets. */
  function CurrencyParseChecks(env: Env, p: Params): seq<Check> {
    [ Check(env.toCurrency(Text(env, CurrencyMember(p, Pays))).None?,
            Coded(Pays.CurrencyCode(), BadCurrency(Pays))),
      Check(env.toCurrency(Text(env, CurrencyMember(p, Gets))).None?,
            Coded(Gets.CurrencyCode(), BadCurrency(Gets))) ]
  }

  /** Each leg's currency a present string (pays, then gets), then both currencies parse. */
  function CurrencyChecks(env: Env, p: Params): seq<Check> {
    CurrencyTextChecks(p, Pays) + CurrencyTextChecks(p, Gets) + CurrencyParseChecks(env, p)
  }

  function TakerChecks(env: Env, p: Params): seq<Check> {
    [ Check("taker" in p && !IsString(p["taker"]), Expected("taker", "string")),
      Check("taker" in p && env.toAccountID(Text(env, p["taker"])).None?, InvalidField("taker")) ]
  }

  /** The same-market check, then the limit's type. */
  function FinalChecks(env: Env, p: Params): seq<Check> {
    [ Check(IssueOf(env, p, Pays) == IssueOf(env, p, Gets), Coded(BadMarket, "")),
      Check("limit" in p && !IsIntegral(p["limit"]), Expected("limit", "integer")) ]
  }

  /** The issuer checks of both legs, pays first. */
  function BookChecks(env: Env, p: Params): seq<Check> {
    IssuerChecks(env, p, Pays) + IssuerChecks(env, p, Gets)
  }

  /** The checks after the book: the taker's, then the final two. */
  function QueryChecks(env: Env, p: Params): seq<Check> {
    TakerChecks(env, p) + FinalChecks(env, p)
  }

  /** Every single-pair check, in the order the handler performs them. */
  function Checks(env: Env, p: Params): seq<Check> {
    LegChecks(p) + CurrencyChecks(env, p) + BookChecks(env, p) + QueryChecks(env, p)
  }

  /** The outcome a table of checks stands for: its first failure, or `success`. */
  function Verdict<T>(cs: seq<Check>, success: T): Result<T, RpcError> {
    match FirstFailure(cs)
    case Some(e) => Err(e)
    case None => Ok(success)
  }

  /** One step of `FirstFailure` at position `k` of `cs`. */
  lemma FirstFailureStep(cs: seq<Check>, k: nat)
    requires k < |cs|
    ensures FirstFailure(cs[k..]) == if cs[k].fails then Some(cs[k].error) else FirstFailure(cs[k + 1..])
  {
    assert cs[k..][1..] == cs[k + 1..];
  }

  /** Checking two tables in a row is checking their concatenation. */
  lemma {:induction false} FirstFailureAppend(a: seq<Check>, b: seq<Check>)
    ensures FirstFailure(a + b) == if FirstFailure(a).Some? then FirstFailure(a) else FirstFailure(b)
  {
    if a != [] {
      assert (a + b)[1..] == a[1..] + b;
      FirstFailureAppend(a[1..], b);
    } else {
      assert a + b == b;
    }
  }

  lemma LegPhase(p: Params)
    ensures Legs(p) == Verdict(LegChecks(p), (LegFields(p, Pays), LegFields(p, Gets)))
  {
    var cs := LegChecks(p);
    assert cs[0..] == cs;
    FirstFailureStep(cs, 0); FirstFailureStep(cs, 1); FirstFailureStep(cs, 2); FirstFailureStep(cs, 3);
    assert cs[4..] == [];
  }

  lemma CurrencyTextPhase(env: Env, p: Params, side: Side)
    ensures CurrencyText(LegFields(p, side), side)
         == Verdict(CurrencyTextChecks(p, side), Text(env, CurrencyMember(p, side)))
  {
    var cs := CurrencyTextChecks(p, side);
    assert cs[0..] == cs;
    FirstFailureStep(cs, 0); FirstFailureStep(cs, 1);
    assert cs[2..] == [];
  }

  lemma CurrencyParsePhase(env: Env, p: Params)
    ensures var cs := CurrencyParseChecks(env, p);
      var pays := env.toCurrency(Text(env, CurrencyMember(p, Pays)));
      var gets := env.toCurrency(Text(env, CurrencyMember(p, Gets)));
      && (FirstFailure(cs).None? <==> pays.Some? && gets.Some?)
      && (pays.None? ==> FirstFailure(cs) == Some(cs[0].error))
      && (pays.Some? && gets.None? ==> FirstFailure(cs) == Some(cs[1].error))
  {
    var cs := CurrencyParseChecks(env, p);
    assert cs[0..] == cs;
    FirstFailureStep(cs, 0); FirstFailureStep(cs, 1);
    assert cs[2..] == [];
  }

  lemma CurrencyPhase(env: Env, p: Params)
    ensures Currencies(env, LegFields(p, Pays), LegFields(p, Gets))
         == Verdict(CurrencyChecks(env, p), (CurrencyOf(env, p, Pays), CurrencyOf(env, p, Gets)))
  {
    var a := CurrencyTextChecks(p, Pays);
    var b := CurrencyTextChecks(p, Gets);
    var c := CurrencyParseChecks(env, p);
    FirstFailureAppend(a + b, c);
    FirstFailureAppend(a, b);
    CurrencyTextPhase(env, p, Pays);
    CurrencyTextPhase(env, p, Gets);
    CurrencyParsePhase(env, p);
  }

  lemma DeclaredIssuerPhase(env: Env, p: Params, side: Side)
    ensures DeclaredIssuer(env, LegFields(p, side), side)
         == Verdict(DeclaredIssuerChecks(env, p, side), IssuerOf(env, p, side))
  {
    var cs := DeclaredIssuerChecks(env, p, side);
    assert cs[0..] == cs;
    FirstFailureStep(cs, 0); FirstFailureStep(cs, 1); FirstFailureStep(cs, 2);
    assert cs[3..] == [];
  }

  lemma NativeRulePhase(env: Env, p: Params, side: Side)
    ensures var cs := NativeRuleChecks(env, p, side);
      && (FirstFailure(cs).None? <==> Consistent(IssueOf(env, p, side)))
      && (FirstFailure(cs).Some? ==> FirstFailure(cs) == Some(if cs[0].fails then cs[0].error else cs[1].error))
  {
    var cs := NativeRuleChecks(env, p, side);
    assert cs[0..] == cs;
    FirstFailureStep(cs, 0); FirstFailureStep(cs, 1);
    assert cs[2..] == [];
  }

  lemma IssuerPhase(env: Env, p: Params, side: Side)
    ensures LegIssuer(env, LegFields(p, side), CurrencyOf(env, p, side), side)
         == Verdict(IssuerChecks(env, p, side), IssuerOf(env, p, side))
  {
    FirstFailureAppend(DeclaredIssuerChecks(env, p, side), NativeRuleChecks(env, p, side));
    DeclaredIssuerPhase(env, p, side);
    NativeRulePhase(env, p, side);
  }

  lemma TakerPhase(env: Env, p: Params)
    ensures Taker(env, p) == Verdict(TakerChecks(env, p), TakerOf(env, p))
  {
    var cs := TakerChecks(env, p);
    assert cs[0..] == cs;
    FirstFailureStep(cs, 0); FirstFailureStep(cs, 1);
    assert cs[2..] == [];
  }

  lemma FinalPhase(env: Env, p: Params)
    ensures FirstFailure(FinalChecks(env, p)).None?
        <==> IssueOf(env, p, Pays) != IssueOf(env, p, Gets) && !("limit" in p && !IsIntegral(p["limit"]))
    ensures IssueOf(env, p, Pays) == IssueOf(env, p, Gets) ==> FirstFailure(FinalChecks(env, p)) == Some(Coded(BadMarket, ""))
    ensures IssueOf(env, p, Pays) != IssueOf(env, p, Gets) && "limit" in p && !IsIntegral(p["limit"])
        ==> FirstFailure(FinalChecks(env, p)) == Some(Expected("limit", "integer"))
  {
    var cs := FinalChecks(env, p);
    assert cs[0..] == cs;
    FirstFailureStep(cs, 0); FirstFailureStep(cs, 1);
    assert cs[2..] == [];
  }

  lemma BookPhase(env: Env, p: Params)
    ensures PairBook(env, LegFields(p, Pays), LegFields(p, Gets), CurrencyOf(env, p, Pays), CurrencyOf(env, p, Gets))
         == Verdict(BookChecks(env, p), Book(IssueOf(env, p, Pays), IssueOf(env, p, Gets)))
  {
    FirstFailureAppend(IssuerChecks(env, p, Pays), IssuerChecks(env, p, Gets));
    IssuerPhase(env, p, Pays);
    IssuerPhase(env, p, Gets);
  }

  lemma QueryPhase(env: Env, p: Params)
    ensures FinishQuery(env, p, Book(IssueOf(env, p, Pays), IssueOf(env, p, Gets)))
         == Verdict(QueryChecks(env, p), QueryOf(env, p))
  {
    FirstFailureAppend(TakerChecks(env, p), FinalChecks(env, p));
    TakerPhase(env, p);
    FinalPhase(env, p);
  }

  /**
   * The handler's validation is the table: it fails with the error of the first failing
   * check, and it succeeds, with `QueryOf`, exactly when no check fails.
   */
  lemma ValidateFollowsTable(env: Env, p: Params)
    ensures Validate(env, p) == Verdict(Checks(env, p), QueryOf(env, p))
  {
    var a := LegChecks(p);
    var b := CurrencyChecks(env, p);
    var c := BookChecks(env, p);
    var d := QueryChecks(env, p);
    FirstFailureAppend(a + b + c, d);
    FirstFailureAppend(a + b, c);
    FirstFailureAppend(a, b);
    LegPhase(p);
    if FirstFailure(a).Some? {
      return;
    }
    CurrencyPhase(env, p);
    if FirstFailure(b).Some? {
      return;
    }
    BookPhase(env, p);
    if FirstFailure(c).Some? {
      return;
    }
    QueryPhase(env, p);
  }
}

=== FILE: collaborators.dfy ===
/**
 * What the handler calls but does not define: the identifier parsers, the JSON library's
 * conversions and iteration, and the order-book page fetch. Each is a function-valued field of
 * `Env`. The properties hold whatever these functions return, with one assumption: when
 * `to_currency` or `to_issuer` rejects its text, the output variable keeps its old value.
 */
module Collaborators {
  import opened Results
  import opened Identifiers
  import opened JsonModel

  /** A ledger snapshot; only its identity matters here. */
  datatype Ledger = Ledger(id: nat)

  /** One call of `getBookPage`: its arguments, in the source's order. */
  datatype Fetch = Fetch(
    ledger: Ledger,
    book: Book,
    taker: Account,
    proof: bool,
    limit: UInt32,
    marker: Json)

  /** What `getBookPage` writes into its result: the offers array and an optional resume marker. */
  datatype Page = Page(offers: Json, marker: Option<Json>)

  datatype Env = Env(
    /** `to_currency`: a currency code from its text, or None when the text is not one. */
    toCurrency: string -> Option<Currency>,
    /** `to_issuer`: an account from its text, or None when the text is not one. */
    toIssuer: string -> Option<Account>,
    /** `RippleAddress::setAccountID` followed by `getAccountID`. */
    toAccountID: string -> Option<Account>,
    /** `Json::Value::asUInt`. */
    asUInt: Json -> UInt32,
    /** `Json::Value::asString` on a value that is not a string. */
    asString: Json -> string,
    /** The elements a range-for over a JSON value visits, in order. */
    elements: Json -> seq<Json>,
    /** `getBookPage` on the given arguments. */
    getBookPage: Fetch -> Page)

  /** `v.asString()`: the payload of a string, the library's rendering of anything else. */
  function Text(env: Env, v: Json): string {
    if v.Str? then v.s else env.asString(v)
  }

  /** The `isMember(key) ? params[key].asUInt() : 0` idiom. */
  function UIntOrZero(env: Env, p: Params, key: string): UInt32 {
    if key in p then env.asUInt(p[key]) else 0
  }

  /** A fetch as the list and batch modes issue it: no taker filter, no proof, null marker. */
  function PlainFetch(ledger: Ledger, book: Book, limit: UInt32): Fetch {
    Fetch(ledger, book, NoAccount, false, limit, Null)
  }

  predicate IsPlain(f: Fetch, ledger: Ledger, limit: UInt32) {
    f.ledger == ledger && f.taker == NoAccount && !f.proof && f.limit == limit && f.marker == Null
  }

  /** The plain fetches of `books`, in order. */
  function PlainFetches(ledger: Ledger, books: seq<Book>, limit: UInt32): seq<Fetch>
  {
    seq(|books|, i requires 0 <= i < |books| => PlainFetch(ledger, books[i], limit))
  }

  /** The books of a sequence of fetches. */
  function BooksOf(calls: seq<Fetch>): seq<Book>
  {
    seq(|calls|, i requires 0 <= i < |calls| => calls[i].book)
  }

  /** The `offers` array of each call's page, one element per call, in call order. */
  function OffersOf(env: Env, calls: seq<Fetch>): seq<Json>
  {
    seq(|calls|, i requires 0 <= i < |calls| => env.getBookPage(calls[i]).offers)
  }
}

=== FILE: handler.dfy ===
/**
 * The `book_offers` RPC handler (`doBookOffers`): the admission gate, the ledger lookup, the
 * choice of mode by which members the request has, and the single-pair fetch.
 */
module Handler {
  import opened Results
  import opened Identifiers
  import opened JsonModel
  import opened RpcErrors
  import opened Collaborators
  import opened PairValidator
  import CheckTable
  import ListMode
  import BatchMode

  /** More client jobs than this and the request is shed. */
  const BusyThreshold: int := 200

  /** The request and the node state the handler reads. */
  datatype Request = Request(
    /** The job queue's count of client jobs (`getJobCountGE(jtCLIENT)`). */
    clientJobs: int,
    /** The ledger `RPC::lookupLedger` resolves for the request, if any. */
    requested: Option<Ledger>,
    /** The ledger master's published ledger, if any. */
    published: Option<Ledger>,
    /** The order-book database's source map, in iteration order. */
    directory: seq<ListMode.DirEntry>,
    /** The request's members. */
    params: Params)

  datatype Mode = CurrencyList | PairMap | SinglePair

  /** The mode a request selects: `currencies` first, then `map_pays`, else a single pair. */
  function ModeOf(p: Params): Mode {
    if "currencies" in p then CurrencyList
    else if "map_pays" in p then PairMap
    else SinglePair
  }

  /** The resource charge recorded on the request context. */
  datatype LoadType = DefaultLoad | MediumBurden

  datatype Reply =
      /** An error reply; nothing was fetched. */
    | Rejected(error: RpcError)
      /** `lookupLedger` found no ledger; its own reply is returned and nothing was fetched. */
    | NoLedger
      /** List or batch mode without a published ledger: no `offers` member, nothing fetched. */
    | Unpublished
      /** Single-pair mode: the one fetch and the page it wrote into the reply. */
    | OnePage(call: Fetch, page: Page)
      /** List or batch mode: the fetches, in order, and the `offers` array, one element per fetch. */
    | Pages(calls: seq<Fetch>, offers: seq<Json>)
  {

    /** The `getBookPage` calls the request made, in order. */
    function Calls(): seq<Fetch> {
      match this
      case OnePage(call, _) => [call]
      case Pages(calls, _) => calls
      case _ => []
    }

    function Load(): LoadType {
      if OnePage? then MediumBurden else DefaultLoad
    }
  }

  /** The reply of a list or batch mode that fetched `calls` against a published ledger. */
  function Aggregate(env: Env, calls: seq<Fetch>): Reply {
    Pages(calls, OffersOf(env, calls))
  }

  /**
   * List mode: every book of the directory, filtered by the `currencies` list unless
   * `all_book` is nonzero, fetched against the published ledger.
   */
  function ListReply(env: Env, rq: Request): (r: Reply)
    requires "currencies" in rq.params
    ensures r.Pages? || r.Unpublished?
    ensures r.Unpublished? <==> rq.published.None?
    ensures r.Pages? ==>
              && (forall i :: 0 <= i < |r.calls| ==> r.calls[i].ledger == rq.published.value)
              && r.offers == OffersOf(env, r.calls)
  {
    var p := rq.params;
    var allBook := UIntOrZero(env, p, "all_book");
    var limit := UIntOrZero(env, p, "limit");
    if rq.published.None? then Unpublished
    else Aggregate(env, ListMode.Walk(env, rq.published.value, rq.directory,
                                      env.elements(p["currencies"]), allBook, limit))
  }

  /** Batch mode: both directions of every `map_pays` entry, fetched against the published ledger. */
  function BatchReply(env: Env, rq: Request): (r: Reply)
    requires "map_pays" in rq.params
    ensures r.Pages? || r.Unpublished?
    ensures r.Unpublished? <==> rq.published.None?
    ensures r.Pages? ==>
              && (forall i :: 0 <= i < |r.calls| ==> r.calls[i].ledger == rq.published.value)
              && r.offers == OffersOf(env, r.calls)
  {
    var p := rq.params;
    var limit := UIntOrZero(env, p, "limit");
    if rq.published.None? then Unpublished
    else Aggregate(env, BatchMode.Walk(env, rq.published.value, env.elements(p["map_pays"]), limit))
  }

  /** Single-pair mode against `ledger`: a validation error, or the one page of the validated query. */
  function PairReply(env: Env, ledger: Ledger, p: Params): (r: Reply)
    ensures r.Rejected? || r.OnePage?
    ensures r.Rejected? ==> r.error != Busy
    ensures r.OnePage? ==> r.call.ledger == ledger && r.page == env.getBookPage(r.call)
  {
    match Validate(env, p)
    case Err(e) => Rejected(e)
    case Ok(q) =>
      var call := Fetch(ledger, q.book, q.taker, q.proof, q.limit, q.marker);
      OnePage(call, env.getBookPage(call))
  }

  function BookOffers(env: Env, rq: Request): (r: Reply)
    ensures r == Rejected(Busy) <==> rq.clientJobs > BusyThreshold
    ensures r.NoLedger? <==> rq.clientJobs <= BusyThreshold && rq.requested.None?
    ensures r.Rejected? && r.error != Busy ==> ModeOf(rq.params) == SinglePair
    ensures r.Pages? || r.Unpublished? ==> ModeOf(rq.params) != SinglePair
    ensures r.OnePage? ==>
              && ModeOf(rq.params) == SinglePair
              && r.call.ledger == rq.requested.value
              && r.page == env.getBookPage(r.call)
    ensures r.Pages? ==>
              && rq.published.Some?
              && (forall i :: 0 <= i < |r.calls| ==> r.calls[i].ledger == rq.published.value)
              && r.offers == OffersOf(env, r.calls)
  {
    if rq.clientJobs > BusyThreshold then Rejected(Busy)
    else if rq.requested.None? then NoLedger
    else
      match ModeOf(rq.params)
      case CurrencyList => ListReply(env, rq)
      case PairMap => BatchReply(env, rq)
      case SinglePair => PairReply(env, rq.requested.value, rq.params)
  }

  /** `p` and `q` agree on `key`: both lack it, or both hold the same value. */
  predicate Agree(p: Params, q: Params, key: string) {
    (key in p <==> key in q) && (key in p ==> p[key] == q[key])
  }

  /**
   * Over the threshold, the request is shed before anything else is read: the reply is the
   * busy error whatever the ledgers, the directory and the members are.
   */
  lemma BusyShedsEverything(env: Env, rq: Request, other: Request)
    requires rq.clientJobs > BusyThreshold && other.clientJobs > BusyThreshold
    ensures BookOffers(env, rq) == BookOffers(env, other) == Rejected(Busy)
    ensures BookOffers(env, rq).Calls() == []
  {
  }

  /**
   * Single-pair mode answers with the first failing check of the table, fetching nothing;
   * when no check fails it makes exactly one fetch, against the requested ledger, of the book
   * `{pays, gets}` with the validated taker, the presence of `proof`, the limit and the
   * caller's marker, and charges a medium load.
   */
  lemma SinglePairReply(env: Env, rq: Request)
    requires rq.clientJobs <= BusyThreshold && rq.requested.Some?
    requires ModeOf(rq.params) == SinglePair
    ensures var r := BookOffers(env, rq);
      var p := rq.params;
      match CheckTable.FirstFailure(CheckTable.Checks(env, p))
      case Some(e) => r == Rejected(e) && r.Calls() == []
      case None =>
        var q := CheckTable.QueryOf(env, p);
        && r.Calls() == [Fetch(rq.requested.value, Book(CheckTable.IssueOf(env, p, Pays), CheckTable.IssueOf(env, p, Gets)), q.taker, "proof" in p, UIntOrZero(env, p, "limit"),
                               Member(p, "marker"))]
        && r.Load() == MediumBurden
  {
    CheckTable.ValidateFollowsTable(env, rq.params);
  }

  /** Whenever `currencies` is present, list mode runs, whatever else the request holds. */
  lemma ListModeRuns(env: Env, rq: Request)
    requires rq.clientJobs <= BusyThreshold && rq.requested.Some?
    requires "currencies" in rq.params
    requires rq.published.Some?
    ensures var p := rq.params;
      BookOffers(env, rq)
        == Aggregate(env, ListMode.Walk(env, rq.published.value, rq.directory, env.elements(p["currencies"]),
                                        UIntOrZero(env, p, "all_book"), UIntOrZero(env, p, "limit")))
  {
  }

  /** Without `currencies` but with `map_pays`, batch mode runs, whatever else the request holds. */
  lemma BatchModeRuns(env: Env, rq: Request)
    requires rq.clientJobs <= BusyThreshold && rq.requested.Some?
    requires "currencies" !in rq.params && "map_pays" in rq.params
    requires rq.published.Some?
    ensures var p := rq.params;
      BookOffers(env, rq)
        == Aggregate(env, BatchMode.Walk(env, rq.published.value, env.elements(p["map_pays"]),
                                         UIntOrZero(env, p, "limit")))
  {
  }

  /**
   * List mode never looks at the single-pair members (or `map_pays`): two requests that agree
   * on `currencies`, `all_book` and `limit` get the same reply.
   */
  lemma ListModeIgnoresOtherMembers(env: Env, rq: Request, q: Params)
    requires "currencies" in rq.params
    requires Agree(rq.params, q, "currencies") && Agree(rq.params, q, "all_book") && Agree(rq.params, q, "limit")
    ensures BookOffers(env, rq) == BookOffers(env, rq.(params := q))
  {
  }

  /**
   * Batch mode never looks at the single-pair members: two requests without `currencies`
   * that agree on `map_pays` and `limit` get the same reply.
   */
  lemma BatchModeIgnoresOtherMembers(env: Env, rq: Request, q: Params)
    requires "map_pays" in rq.params && "currencies" !in rq.params && "currencies" !in q
    requires Agree(rq.params, q, "map_pays") && Agree(rq.params, q, "limit")
    ensures BookOffers(env, rq) == BookOffers(env, rq.(params := q))
  {
  }

  /**
   * A batch of one full entry `[c1, i1, c2, i2]` whose four strings parse makes exactly two
   * fetches, `{c1/i1, c2/i2}` and then `{c2/i2, c1/i1}`, and its `offers` array holds the two
   * pages' offers in that order.
   */
  lemma OneEntryBatch(env: Env, rq: Request, entry: Json, c1: Currency, i1: Account, c2: Currency, i2: Account)
    requires rq.clientJobs <= BusyThreshold && rq.requested.Some? && rq.published.Some?
    requires "currencies" !in rq.params && "map_pays" in rq.params
    requires env.elements(rq.params["map_pays"]) == [entry]
    requires var items := env.elements(entry);
      && |items| == 4
      && env.toCurrency(Text(env, items[0])) == Some(c1) && env.toIssuer(Text(env, items[1])) == Some(i1)
      && env.toCurrency(Text(env, items[2])) == Some(c2) && env.toIssuer(Text(env, items[3])) == Some(i2)
    ensures var r := BookOffers(env, rq);
      var forward := PlainFetch(rq.published.value, Book(Issue(c1, i1), Issue(c2, i2)), UIntOrZero(env, rq.params, "limit"));
      var reverse := PlainFetch(rq.published.value, Book(Issue(c2, i2), Issue(c1, i1)), UIntOrZero(env, rq.params, "limit"));
      && r.Calls() == [forward, reverse]
      && r == Pages([forward, reverse], [env.getBookPage(forward).offers, env.getBookPage(reverse).offers])
  {
    var entries := [entry];
    assert entries[..0] == [];
    assert BatchMode.VarsAfter(env, entries) == BatchMode.Vars(c1, i1, c2, i2);
  }

  /**
   * With `all_book` nonzero, element `i` of list mode's `offers` is the page of the directory's
   * `i`-th book, fetched plain against the published ledger.
   */
  lemma EveryBookOffers(env: Env, rq: Request, i: nat)
    requires rq.clientJobs <= BusyThreshold && rq.requested.Some? && rq.published.Some?
    requires "currencies" in rq.params && UIntOrZero(env, rq.params, "all_book") != 0
    requires i < |ListMode.Books(rq.directory)|
    ensures var r := BookOffers(env, rq);
      var books := ListMode.Books(rq.directory);
      var limit := UIntOrZero(env, rq.params, "limit");
      && r.Pages? && |r.offers| == |books|
      && r.offers[i] == env.getBookPage(PlainFetch(rq.published.value, books[i], limit)).offers
  {
  }

  /**
   * Batch mode's `offers` pairs up by entry: element `2k` is the page of entry `k`'s forward
   * book, read from the loop variables after entries 0 to `k`, and element `2k + 1` is the
   * page of the reversed book, both fetched plain against the published ledger.
   */
  lemma BatchOffersByEntry(env: Env, rq: Request, k: nat)
    requires rq.clientJobs <= BusyThreshold && rq.requested.Some? && rq.published.Some?
    requires "currencies" !in rq.params && "map_pays" in rq.params
    requires k < |env.elements(rq.params["map_pays"])|
    ensures var r := BookOffers(env, rq);
      var entries := env.elements(rq.params["map_pays"]);
      var book := BatchMode.VarsAfter(env, entries[..k + 1]).Forward();
      var limit := UIntOrZero(env, rq.params, "limit");
      && r.Pages? && |r.offers| == 2 * |entries|
      && r.offers[2 * k] == env.getBookPage(PlainFetch(rq.published.value, book, limit)).offers
      && r.offers[2 * k + 1] == env.getBookPage(PlainFetch(rq.published.value, book.Reversed(), limit)).offers
  {
    var entries := env.elements(rq.params["map_pays"]);
    var calls := BatchMode.Walk(env, rq.published.value, entries, UIntOrZero(env, rq.params, "limit"));
    assert (2 * k) % 2 == 0 && (2 * k) / 2 + 1 == k + 1;
    assert (2 * k + 1) % 2 == 1;
  }
}

=== FILE: identifiers.dfy ===
/**
 * Currency codes, issuing accounts, issues and books.
 *
 * Both currency codes and account IDs are 160-bit values. The ledger's native asset, XRP, is
 * the all-zero currency; its pseudo-issuer is the all-zero account (`xrpAccount`), and the
 * account with value one (`noAccount`) is reserved to mean "no account".
 */
module Identifiers {

  /** An unsigned 160-bit value. */
  type Uint160 = x: int | 0 <= x < 0x10000000000000000000000000000000000000000

  datatype Currency = Currency(bits: Uint160)

  datatype Account = Account(bits: Uint160)

  const XrpCurrency: Currency := Currency(0)

  const XrpAccount: Account := Account(0)

  const NoAccount: Account := Account(1)

  predicate IsXrpCurrency(c: Currency) {
    c == XrpCurrency
  }

  predicate IsXrpAccount(a: Account) {
    a == XrpAccount
  }

  /** An asset: a currency together with the account that issues it. */
  datatype Issue = Issue(currency: Currency, account: Account)

  /** The native-asset rule: the XRP currency goes with the XRP issuer, and nothing else does. */
  predicate Consistent(i: Issue) {
    IsXrpCurrency(i.currency) <==> IsXrpAccount(i.account)
  }

  /**
   * One trading direction. `pays` is what the taker pays (the book's `in` issue) and `gets`
   * what the taker gets (its `out` issue).
   */
  datatype Book = Book(pays: Issue, gets: Issue) {

    /** The opposite direction of the same market. */
    function Reversed(): Book {
      Book(gets, pays)
    }
  }
}

=== FILE: json_model.dfy ===
/**
 * The part of a JSON value the handler looks at: its type tag, the members of an object, and
 * the payload of a string. Conversions (`asUInt`, `asString` on non-strings) and iteration
 * belong to the JSON library and are collaborators (see module Collaborators).
 */
module JsonModel {

  datatype Json =
    | Null
    | Bool(b: bool)
    | Int(i: int)
    | UInt(u: nat)
    | Real(r: real)
    | Str(s: string)
    | Array(elems: seq<Json>)
    | Object(members: map<string, Json>)

  /** The request document: the members of the top-level JSON object. */
  type Params = map<string, Json>

  /** An unsigned 32-bit value, the type `asUInt` converts to. */
  type UInt32 = x: int | 0 <= x < 0x1_0000_0000

  /** `o[key]` on a read-only object: the member, or null when it is absent. */
  function Member(o: Params, key: string): Json {
    if key in o then o[key] else Null
  }

  /** The members of a value that is an object; nothing for any other value. */
  function Fields(v: Json): Params {
    if v.Object? then v.members else map[]
  }

  predicate IsString(v: Json) {
    v.Str?
  }

  predicate IsObject(v: Json) {
    v.Object?
  }

  predicate IsIntegral(v: Json) {
    v.Int? || v.UInt?
  }
}

=== FILE: list_mode.dfy ===
/**
 * List mode of `book_offers` (`getBookPageAll`): a request with a `currencies` member walks
 * the order-book directory and fetches a page for every book, or only for the books whose
 * currencies match an ordered pair drawn from the list.
 */
module ListMode {
  import opened Results
  import opened Identifiers
  import opened JsonModel
  import opened Collaborators

  /** One entry of the order-book directory: a source issue and the books it starts. */
  datatype DirEntry = DirEntry(source: Issue, books: seq<Book>)

  /** The directory's books in iteration order: entry after entry, each entry's books in order. */
  function Books(dir: seq<DirEntry>): (books: seq<Book>)
    ensures forall i, b :: 0 <= i < |dir| && b in dir[i].books ==> b in books
    ensures forall b :: b in books ==> exists i :: 0 <= i < |dir| && b in dir[i].books
  {
    if dir == [] then []
    else
      var rest := Books(dir[1..]);
      assert forall i :: 1 <= i < |dir| ==> dir[i] == dir[1..][i - 1];
      dir[0].books + rest
  }

  /** `x` paired with every element of `ys`, in order. */
  function Row<A, B>(x: A, ys: seq<B>): seq<(A, B)>
  {
    seq(|ys|, j requires 0 <= j < |ys| => (x, ys[j]))
  }

  /** Every pair `(x, y)`, `x` outer and `y` inner, as two nested range-for loops visit them. */
  function Cross<A, B>(xs: seq<A>, ys: seq<B>): (r: seq<(A, B)>)
    ensures |r| == |xs| * |ys|
    ensures forall k :: 0 <= k < |r| ==> r[k].0 in xs && r[k].1 in ys
  {
    if xs == [] then []
    else
      var rest := Cross(xs[1..], ys);
      assert |xs| * |ys| == |ys| + |xs[1..]| * |ys|;
      Row(xs[0], ys) + rest
  }

  /**
   * Position `i * |ys| + j` of `Cross(xs, ys)` is the pair `(xs[i], ys[j])`: every pair
   * occurs, with `xs` in the outer loop and `ys` in the inner one.
   */
  lemma {:induction false} CrossAt<A, B>(xs: seq<A>, ys: seq<B>, i: nat, j: nat)
    requires i < |xs| && j < |ys|
    ensures i * |ys| + j < |Cross(xs, ys)|
    ensures Cross(xs, ys)[i * |ys| + j] == (xs[i], ys[j])
  {
    var m := |ys|;
    var rest := Cross(xs[1..], ys);
    assert Cross(xs, ys) == Row(xs[0], ys) + rest;
    if i > 0 {
      CrossAt(xs[1..], ys, i - 1, j);
      var k := (i - 1) * m + j;
      assert i * m == (i - 1) * m + m;
      assert i * m + j == m + k;
      assert xs[i] == xs[1..][i - 1];
    }
  }

  /** A book visited together with one ordered pair `(it1, it2)` of list entries. */
  type Step = (Book, (Json, Json))

  /** The two currencies the list walk compares books against; they persist across steps. */
  datatype Cursor = Cursor(src: Currency, dst: Currency)

  /** The cursor before the walk: both currencies default-constructed, which is XRP's code. */
  const Start: Cursor := Cursor(XrpCurrency, XrpCurrency)

  /** `to_currency(current, text)`: the parsed code, or `current` unchanged when the text is not one. */
  function ParseOr(env: Env, v: Json, current: Currency): Currency {
    env.toCurrency(Text(env, v)).GetOr(current)
  }

  /**
   * The books the currency-filtered walk fetches, in order: each step parses its two entries
   * into the cursor and fetches the book when the cursor holds the book's two currencies.
   */
  function Scan(env: Env, steps: seq<Step>, c: Cursor): (books: seq<Book>)
    ensures |books| <= |steps|
  {
    if steps == [] then []
    else
      var book := steps[0].0;
      var next := Cursor(ParseOr(env, steps[0].1.0, c.src), ParseOr(env, steps[0].1.1, c.dst));
      (if book.pays.currency == next.src && book.gets.currency == next.dst then [book] else [])
      + Scan(env, steps[1..], next)
  }

  /** Every book the filtered walk fetches is the book of one of its steps. */
  lemma {:induction false} ScanVisits(env: Env, steps: seq<Step>, c: Cursor)
    ensures forall b :: b in Scan(env, steps, c) ==> exists k :: 0 <= k < |steps| && steps[k].0 == b
  {
    if steps != [] {
      var next := Cursor(ParseOr(env, steps[0].1.0, c.src), ParseOr(env, steps[0].1.1, c.dst));
      ScanVisits(env, steps[1..], next);
      assert forall k :: 1 <= k < |steps| ==> steps[k] == steps[1..][k - 1];
    }
  }

  /**
   * The fetches of list mode: every directory book when `allBook` is nonzero, otherwise the
   * books `Scan` selects over books (outer), first entry, second entry (inner). Each fetch is
   * plain: no taker filter, no proof, null marker, the shared limit.
   */
  function Walk(env: Env, ledger: Ledger, dir: seq<DirEntry>, currencies: seq<Json>,
                allBook: UInt32, limit: UInt32): (calls: seq<Fetch>)
    ensures forall i :: 0 <= i < |calls| ==> IsPlain(calls[i], ledger, limit)
    ensures forall i :: 0 <= i < |calls| ==> calls[i].book in Books(dir)
  {
    var books := Books(dir);
    if allBook != 0 then PlainFetches(ledger, books, limit)
    else
      var steps := Cross(books, Cross(currencies, currencies));
      var selected := Scan(env, steps, Start);
      ScanVisits(env, steps, Start);
      assert forall b :: b in selected ==> b in books;
      PlainFetches(ledger, selected, limit)
  }

  // ----- A stateless reference for the filtered walk -----

  predicate ParsesTo(env: Env, v: Json, c: Currency) {
    env.toCurrency(Text(env, v)) == Some(c)
  }

  predicate Parses(env: Env, v: Json) {
    env.toCurrency(Text(env, v)).Some?
  }

  /** The number of entries of `xs` that parse to `c`. */
  function Count(env: Env, xs: seq<Json>, c: Currency): nat {
    if xs == [] then 0 else (if ParsesTo(env, xs[0], c) then 1 else 0) + Count(env, xs[1..], c)
  }

  function Repeat<T>(x: T, n: nat): seq<T>
  {
    seq(n, _ => x)
  }

  /**
   * What the filtered walk fetches when every entry parses: book after book, each book once
   * per ordered pair of entries that name its currencies, so a currency listed twice doubles
   * the fetches of the books that use it.
   */
  function ExpectedBooks(env: Env, books: seq<Book>, xs: seq<Json>): seq<Book> {
    if books == [] then []
    else
      var b := books[0];
      Repeat(b, Count(env, xs, b.pays.currency) * Count(env, xs, b.gets.currency)) + ExpectedBooks(env, books[1..], xs)
  }

  /** The steps whose two entries parse to the step's book's currencies. */
  function Select(env: Env, steps: seq<Step>): seq<Book> {
    if steps == [] then []
    else
      (if ParsesTo(env, steps[0].1.0, steps[0].0.pays.currency)
          && ParsesTo(env, steps[0].1.1, steps[0].0.gets.currency)
       then [steps[0].0] else [])
      + Select(env, steps[1..])
  }

  /** When every entry parses, the cursor carries nothing between steps. */
  lemma {:induction false} ScanIsSelect(env: Env, steps: seq<Step>, c: Cursor)
    requires forall k :: 0 <= k < |steps| ==> Parses(env, steps[k].1.0) && Parses(env, steps[k].1.1)
    ensures Scan(env, steps, c) == Select(env, steps)
  {
    if steps != [] {
      var next := Cursor(ParseOr(env, steps[0].1.0, c.src), ParseOr(env, steps[0].1.1, c.dst));
      assert forall k :: 1 <= k < |steps| ==> steps[k] == steps[1..][k - 1];
      ScanIsSelect(env, steps[1..], next);
    }
  }

  lemma {:induction false} SelectAppend(env: Env, a: seq<Step>, b: seq<Step>)
    ensures Select(env, a + b) == Select(env, a) + Select(env, b)
  {
    if a == [] {
      assert a + b == b;
    } else {
      assert (a + b)[1..] == a[1..] + b;
      SelectAppend(env, a[1..], b);
    }
  }

  lemma RowAppend<A, B>(x: A, ys: seq<B>, zs: seq<B>)
    ensures Row(x, ys + zs) == Row(x, ys) + Row(x, zs)
  {
  }

  /** One book against one first entry: a fetch per second entry naming the book's `gets` currency. */
  lemma {:induction false} SelectOneEntry(env: Env, b: Book, x: Json, ys: seq<Json>)
    ensures Select(env, Row(b, Row(x, ys)))
         == Repeat(b, if ParsesTo(env, x, b.pays.currency) then Count(env, ys, b.gets.currency) else 0)
  {
    if ys != [] {
      var steps := Row(b, Row(x, ys));
      assert steps[1..] == Row(b, Row(x, ys[1..]));
      SelectOneEntry(env, b, x, ys[1..]);
    }
  }

  lemma RepeatAppend<T>(x: T, m: nat, n: nat)
    ensures Repeat(x, m) + Repeat(x, n) == Repeat(x, m + n)
  {
  }

  /** One book against the whole list: (its `pays` count) times (its `gets` count) fetches. */
  lemma {:induction false} SelectOneBook(env: Env, b: Book, xs: seq<Json>, ys: seq<Json>)
    ensures Select(env, Row(b, Cross(xs, ys)))
         == Repeat(b, Count(env, xs, b.pays.currency) * Count(env, ys, b.gets.currency))
  {
    if xs != [] {
      var m := Count(env, ys, b.gets.currency);
      var n := Count(env, xs[1..], b.pays.currency);
      var h := if ParsesTo(env, xs[0], b.pays.currency) then m else 0;
      calc {
        Select(env, Row(b, Cross(xs, ys)));
        { assert Cross(xs, ys) == Row(xs[0], ys) + Cross(xs[1..], ys);
          RowAppend(b, Row(xs[0], ys), Cross(xs[1..], ys)); }
        Select(env, Row(b, Row(xs[0], ys)) + Row(b, Cross(xs[1..], ys)));
        { SelectAppend(env, Row(b, Row(xs[0], ys)), Row(b, Cross(xs[1..], ys))); }
        Select(env, Row(b, Row(xs[0], ys))) + Select(env, Row(b, Cross(xs[1..], ys)));
        { SelectOneEntry(env, b, xs[0], ys); SelectOneBook(env, b, xs[1..], ys); }
        Repeat(b, h) + Repeat(b, n * m);
        { RepeatAppend(b, h, n * m); }
        Repeat(b, h + n * m);
        { CountProduct(if ParsesTo(env, xs[0], b.pays.currency) then 1 else 0, n, m); }
        Repeat(b, Count(env, xs, b.pays.currency) * m);
      }
    }
  }

  lemma CountProduct(d: nat, n: nat, m: nat)
    requires d <= 1
    ensures (d + n) * m == (if d == 1 then m else 0) + n * m
  {
  }

  lemma {:induction false} SelectAllBooks(env: Env, books: seq<Book>, xs: seq<Json>)
    ensures Select(env, Cross(books, Cross(xs, xs))) == ExpectedBooks(env, books, xs)
  {
    if books != [] {
      SelectAppend(env, Row(books[0], Cross(xs, xs)), Cross(books[1..], Cross(xs, xs)));
      SelectOneBook(env, books[0], xs, xs);
      SelectAllBooks(env, books[1..], xs);
    }
  }

  /**
   * With `all_book` zero and every listed currency parsing, list mode fetches each directory
   * book, in directory order, once per ordered pair of list entries that name the book's
   * `pays` and `gets` currencies.
   */
  lemma FilteredWalkWhenAllParse(env: Env, ledger: Ledger, dir: seq<DirEntry>, currencies: seq<Json>,
                                 limit: UInt32)
    requires forall k :: 0 <= k < |currencies| ==> Parses(env, currencies[k])
    ensures BooksOf(Walk(env, ledger, dir, currencies, 0, limit)) == ExpectedBooks(env, Books(dir), currencies)
  {
    var steps := Cross(Books(dir), Cross(currencies, currencies));
    forall k | 0 <= k < |steps|
      ensures Parses(env, steps[k].1.0) && Parses(env, steps[k].1.1)
    {
      var pair := steps[k].1;
      assert pair in Cross(currencies, currencies);
    }
    ScanIsSelect(env, steps, Start);
    SelectAllBooks(env, Books(dir), currencies);
  }

  /** With `all_book` nonzero, list mode fetches every directory book once, in directory order. */
  lemma EveryBookWalk(env: Env, ledger: Ledger, dir: seq<DirEntry>, currencies: seq<Json>,
                      allBook: UInt32, limit: UInt32)
    requires allBook != 0
    ensures BooksOf(Walk(env, ledger, dir, currencies, allBook, limit)) == Books(dir)
  {
  }

  // ----- A stateless reference for any list -----

  /** The first entry of each step, in order. */
  function Firsts(steps: seq<Step>): (r: seq<Json>)
    ensures |r| == |steps|
    ensures forall k :: 0 <= k < |steps| ==> r[k] == steps[k].1.0
  {
    if steps == [] then []
    else
      assert forall k :: 1 <= k < |steps| ==> steps[k] == steps[1..][k - 1];
      [steps[0].1.0] + Firsts(steps[1..])
  }

  /** The second entry of each step, in order. */
  function Seconds(steps: seq<Step>): (r: seq<Json>)
    ensures |r| == |steps|
    ensures forall k :: 0 <= k < |steps| ==> r[k] == steps[k].1.1
  {
    if steps == [] then []
    else
      assert forall k :: 1 <= k < |steps| ==> steps[k] == steps[1..][k - 1];
      [steps[0].1.1] + Seconds(steps[1..])
  }

  /**
   * The code of the last of `entries` that parses, or `start` when none does: what one
   * column of the cursor holds once `entries` have been parsed into it.
   */
  function LastParse(env: Env, entries: seq<Json>, start: Currency): Currency
    decreases |entries|
  {
    if entries == [] then start
    else
      match env.toCurrency(Text(env, entries[|entries| - 1]))
      case Some(code) => code
      case None => LastParse(env, entries[..|entries| - 1], start)
  }

  /** The cursor after the steps `seen`, column by column, starting from `c`. */
  function CursorAfter(env: Env, seen: seq<Step>, c: Cursor): Cursor {
    Cursor(LastParse(env, Firsts(seen), c.src), LastParse(env, Seconds(seen), c.dst))
  }

  /**
   * Step `k` fetches its book: the book's `pays` and `gets` currencies are the last codes
   * that parsed among the first and among the second entries of steps 0 to k.
   */
  predicate Matches(env: Env, steps: seq<Step>, c: Cursor, k: nat)
    requires k < |steps|
  {
    var at := CursorAfter(env, steps[..k + 1], c);
    steps[k].0.pays.currency == at.src && steps[k].0.gets.currency == at.dst
  }

  /** The books of the steps from `k` on that match, in step order. */
  function FetchedFrom(env: Env, steps: seq<Step>, c: Cursor, k: nat): seq<Book>
    requires k <= |steps|
    decreases |steps| - k
  {
    if k == |steps| then []
    else (if Matches(env, steps, c, k) then [steps[k].0] else []) + FetchedFrom(env, steps, c, k + 1)
  }

  lemma {:induction false} ColumnsAppend(a: seq<Step>, b: seq<Step>)
    ensures Firsts(a + b) == Firsts(a) + Firsts(b)
    ensures Seconds(a + b) == Seconds(a) + Seconds(b)
  {
    if a == [] {
      assert a + b == b;
    } else {
      assert (a + b)[0] == a[0] && (a + b)[1..] == a[1..] + b;
      ColumnsAppend(a[1..], b);
    }
  }

  /** Parsing one more entry into a column. */
  lemma LastParseSnoc(env: Env, xs: seq<Json>, x: Json, start: Currency)
    ensures LastParse(env, xs + [x], start) == ParseOr(env, x, LastParse(env, xs, start))
  {
    assert (xs + [x])[..|xs|] == xs;
  }

  /** One more step parses its two entries into the cursor the earlier steps left. */
  lemma CursorAfterLast(env: Env, a: seq<Step>, s: Step, c: Cursor)
    ensures CursorAfter(env, a + [s], c)
         == Cursor(ParseOr(env, s.1.0, CursorAfter(env, a, c).src), ParseOr(env, s.1.1, CursorAfter(env, a, c).dst))
  {
    ColumnsAppend(a, [s]);
    assert Firsts([s]) == [s.1.0] && Seconds([s]) == [s.1.1];
    LastParseSnoc(env, Firsts(a), s.1.0, c.src);
    LastParseSnoc(env, Seconds(a), s.1.1, c.dst);
  }

  /** Scanning from step `k` with the cursor steps 0 to `k - 1` left fetches the matching steps from `k` on. */
  lemma {:induction false} ScanSuffix(env: Env, steps: seq<Step>, c: Cursor, k: nat)
    requires k <= |steps|
    ensures Scan(env, steps[k..], CursorAfter(env, steps[..k], c)) == FetchedFrom(env, steps, c, k)
    decreases |steps| - k
  {
    if k < |steps| {
      assert steps[..k + 1] == steps[..k] + [steps[k]];
      CursorAfterLast(env, steps[..k], steps[k], c);
      assert steps[k..][0] == steps[k] && steps[k..][1..] == steps[k + 1..];
      ScanSuffix(env, steps, c, k + 1);
    }
  }

  /**
   * Whatever the list holds, the filtered walk fetches, in order, exactly the books of the
   * steps whose book's currencies are the codes the last parsing entries left in the cursor:
   * an entry that does not parse leaves the previous code in place and the walk goes on.
   */
  lemma ScanIsFetched(env: Env, steps: seq<Step>, c: Cursor)
    ensures Scan(env, steps, c) == FetchedFrom(env, steps, c, 0)
  {
    assert steps[0..] == steps && steps[..0] == [];
    assert Firsts([]) == [] && Seconds([]) == [];
    ScanSuffix(env, steps, c, 0);
  }

  /** With `all_book` zero, list mode fetches the matching steps of books × entries × entries. */
  lemma FilteredWalk(env: Env, ledger: Ledger, dir: seq<DirEntry>, currencies: seq<Json>, limit: UInt32)
    ensures var steps := Cross(Books(dir), Cross(currencies, currencies));
      BooksOf(Walk(env, ledger, dir, currencies, 0, limit)) == FetchedFrom(env, steps, Start, 0)
  {
    ScanIsFetched(env, Cross(Books(dir), Cross(currencies, currencies)), Start);
  }

  // ----- A malformed entry is not skipped -----

  /** A parser that knows one currency, USD, with code 1. */
  const UsdOnly: Env := Env(
    s => if s == "USD" then Some(Currency(1)) else None,
    _ => None, _ => None, _ => 0, _ => "", _ => [], _ => Page(Null, None))

  /**
   * A failed parse leaves the cursor where the previous step put it, and the walk goes on.
   * With a USD-to-USD book and the list ["USD", "x"], every one of the four pairs compares
   * the book against USD/USD, so the book is fetched four times; the list ["USD"] fetches it once.
   */
  lemma MalformedEntryReusesPreviousCurrency(ledger: Ledger, limit: UInt32)
    ensures var usd := Currency(1);
      var book := Book(Issue(usd, Account(2)), Issue(usd, Account(3)));
      var dir := [DirEntry(book.pays, [book])];
      && |Walk(UsdOnly, ledger, dir, [Str("USD"), Str("x")], 0, limit)| == 4
      && |Walk(UsdOnly, ledger, dir, [Str("USD")], 0, limit)| == 1
  {
    var usd := Currency(1);
    var book := Book(Issue(usd, Account(2)), Issue(usd, Account(3)));
    var dir := [DirEntry(book.pays, [book])];
    assert Books(dir) == [book];
    var u, x := Str("USD"), Str("x");
    assert Cross([u, x], [u, x]) == [(u, u), (u, x), (x, u), (x, x)] by {
      assert Cross([u, x][1..], [u, x]) == Row(x, [u, x]) + Cross([u, x][2..], [u, x]);
    }
    var steps := Cross([book], Cross([u, x], [u, x]));
    assert steps == [(book, (u, u)), (book, (u, x)), (book, (x, u)), (book, (x, x))];
    var c := Cursor(usd, usd);
    assert Scan(UsdOnly, steps[3..], c) == [book];
    assert Scan(UsdOnly, steps[2..], c) == [book] + [book];
    assert Scan(UsdOnly, steps[1..], c) == [book] + ([book] + [book]);
    assert Scan(UsdOnly, steps, Start) == [book] + ([book] + ([book] + [book]));
    assert Cross([u], [u]) == [(u, u)];
    var one := Cross([book], Cross([u], [u]));
    assert one == [(book, (u, u))];
    assert Scan(UsdOnly, one, Start) == [book];
  }
}

=== FILE: pair_validator.dfy ===
/**
 * Single-pair mode of `book_offers`: the validation of `taker_pays`, `taker_gets`, `taker`,
 * `limit`, `proof` and `marker`, in the order the handler performs it. The first failing check
 * is the whole result.
 */
module PairValidator {
  import opened Results
  import opened Identifiers
  import opened JsonModel
  import opened RpcErrors
  import opened Collaborators

  /** The two legs of the request, with the names and codes their errors are reported under. */
  datatype Side = Pays | Gets {

    function Key(): string {
      if Pays? then "taker_pays" else "taker_gets"
    }

    /** The code for a currency that does not parse (the gets leg reuses DST_AMT_MALFORMED). */
    function CurrencyCode(): Code {
      if Pays? then SrcCurMalformed else DstAmtMalformed
    }

    /** The code for every issuer error of the leg. */
    function IssuerCode(): Code {
      if Pays? then SrcIsrMalformed else DstIsrMalformed
    }
  }

  /** The name errors use for a member of a leg, as in `taker_pays.currency`. */
  function MemberName(side: Side, member: string): string {
    side.Key() + "." + member
  }

  function BadCurrency(side: Side): string {
    "Invalid field '" + side.Key() + ".currency', bad currency."
  }

  function BadIssuer(side: Side): string {
    "Invalid field '" + side.Key() + ".issuer', bad issuer."
  }

  function IssuerIsAccountOne(side: Side): string {
    "Invalid field '" + side.Key() + ".issuer', bad issuer account one."
  }

  function UnneededIssuer(side: Side): string {
    "Unneeded field '" + side.Key() + ".issuer' for XRP currency specification."
  }

  function NeedsNonXrpIssuer(side: Side): string {
    "Invalid field '" + side.Key() + ".issuer', expected non-XRP issuer."
  }

  /** Everything the single page fetch is given, apart from the ledger. */
  datatype Query = Query(book: Book, taker: Account, proof: bool, limit: UInt32, marker: Json)

  /** Both legs, which must be present and be objects (pays before gets at each step). */
  function Legs(p: Params): Result<(Params, Params), RpcError> {
    if "taker_pays" !in p then Err(MissingField("taker_pays"))
    else if "taker_gets" !in p then Err(MissingField("taker_gets"))
    else if !IsObject(p["taker_pays"]) then Err(NotObject("taker_pays"))
    else if !IsObject(p["taker_gets"]) then Err(NotObject("taker_gets"))
    else Ok((p["taker_pays"].members, p["taker_gets"].members))
  }

  /** The `currency` member of a leg object, which must be present and a string. */
  function CurrencyText(leg: Params, side: Side): Result<string, RpcError> {
    if "currency" !in leg then Err(MissingField(MemberName(side, "currency")))
    else if !IsString(leg["currency"]) then Err(Expected(MemberName(side, "currency"), "string"))
    else Ok(leg["currency"].s)
  }

  function ParseCurrency(env: Env, text: string, side: Side): Result<Currency, RpcError> {
    match env.toCurrency(text)
    case Some(c) => Ok(c)
    case None => Err(Coded(side.CurrencyCode(), BadCurrency(side)))
  }

  /** Both currencies: each leg's member must be a present string, then each must parse. */
  function Currencies(env: Env, pays: Params, gets: Params): (r: Result<(Currency, Currency), RpcError>)
    ensures r.Err? ==> r.error != Busy
  {
    var payText :- CurrencyText(pays, Pays);
    var getText :- CurrencyText(gets, Gets);
    var payCurrency :- ParseCurrency(env, payText, Pays);
    var getCurrency :- ParseCurrency(env, getText, Gets);
    Ok((payCurrency, getCurrency))
  }

  /**
   * The `issuer` member of a leg: XRP's pseudo-issuer when it is absent, otherwise a string
   * that parses to an account other than `noAccount`.
   */
  function DeclaredIssuer(env: Env, leg: Params, side: Side): (r: Result<Account, RpcError>)
    ensures r.Ok? ==> r.value != NoAccount
    ensures "issuer" !in leg ==> r == Ok(XrpAccount)
  {
    if "issuer" !in leg then Ok(XrpAccount)
    else if !IsString(leg["issuer"]) then Err(Expected(MemberName(side, "issuer"), "string"))
    else match env.toIssuer(leg["issuer"].s)
      case None => Err(Coded(side.IssuerCode(), BadIssuer(side)))
      case Some(a) =>
        if a == NoAccount then Err(Coded(side.IssuerCode(), IssuerIsAccountOne(side))) else Ok(a)
  }

  /**
   * The issuer of a leg whose currency is `currency`: its declared issuer, which must then
   * obey the native-asset rule. Every error names the leg.
   */
  function LegIssuer(env: Env, leg: Params, currency: Currency, side: Side): (r: Result<Account, RpcError>)
    ensures r.Ok? ==> Consistent(Issue(currency, r.value)) && r.value != NoAccount
    ensures r.Err? ==>
              || r.error == Expected(MemberName(side, "issuer"), "string")
              || (r.error.Coded? && r.error.code == side.IssuerCode())
  {
    var issuer :- DeclaredIssuer(env, leg, side);
    :- Need(!(IsXrpCurrency(currency) && !IsXrpAccount(issuer)),
            Coded(side.IssuerCode(), UnneededIssuer(side)));
    :- Need(!(!IsXrpCurrency(currency) && IsXrpAccount(issuer)),
            Coded(side.IssuerCode(), NeedsNonXrpIssuer(side)));
    Ok(issuer)
  }

  /** The `taker` member: absent means `noAccount`, present must be a string naming an account. */
  function Taker(env: Env, p: Params): Result<Account, RpcError> {
    if "taker" !in p then Ok(NoAccount)
    else if !IsString(p["taker"]) then Err(Expected("taker", "string"))
    else match env.toAccountID(p["taker"].s)
      case None => Err(InvalidField("taker"))
      case Some(a) => Ok(a)
  }

  /**
   * The book the two legs name: the pays leg's issuer, then the gets leg's, each checked
   * against its own leg's currency.
   */
  function PairBook(env: Env, pays: Params, gets: Params, payCurrency: Currency, getCurrency: Currency)
    : (r: Result<Book, RpcError>)
    ensures r.Ok? ==> r.value.pays.currency == payCurrency && r.value.gets.currency == getCurrency
    ensures r.Ok? ==> Consistent(r.value.pays) && Consistent(r.value.gets)
    ensures r.Ok? ==> r.value.pays.account != NoAccount && r.value.gets.account != NoAccount
    ensures r.Err? ==> r.error != Busy
  {
    var payIssuer :- LegIssuer(env, pays, payCurrency, Pays);
    var getIssuer :- LegIssuer(env, gets, getCurrency, Gets);
    Ok(Book(Issue(payCurrency, payIssuer), Issue(getCurrency, getIssuer)))
  }

  /**
   * The checks that follow the book, in order: the taker, then the two issues must differ,
   * then the limit must be an integer. A query that passes them asks for `book` itself.
   */
  function FinishQuery(env: Env, p: Params, book: Book): (r: Result<Query, RpcError>)
    ensures r.Ok? ==> r.value.book == book && book.pays != book.gets
    ensures r.Ok? ==> r.value.proof == ("proof" in p) && r.value.marker == Member(p, "marker")
    ensures book.pays == book.gets ==> r.Err?
    ensures r.Err? ==> r.error != Busy
  {
    var taker :- Taker(env, p);
    :- Need(book.pays != book.gets, Coded(BadMarket, ""));
    :- Need(!("limit" in p && !IsIntegral(p["limit"])), Expected("limit", "integer"));
    Ok(Query(book, taker, "proof" in p, UIntOrZero(env, p, "limit"), Member(p, "marker")))
  }

  /**
   * All single-pair checks, in the handler's order, and the query they produce. A successful
   * query names a book whose two issues obey the native-asset rule, have real issuers and differ.
   */
  function Validate(env: Env, p: Params): (r: Result<Query, RpcError>)
    ensures r.Ok? ==> Consistent(r.value.book.pays) && Consistent(r.value.book.gets)
    ensures r.Ok? ==> r.value.book.pays.account != NoAccount && r.value.book.gets.account != NoAccount
    ensures r.Ok? ==> r.value.book.pays != r.value.book.gets
    ensures r.Ok? ==> r.value.proof == ("proof" in p) && r.value.marker == Member(p, "marker")
    ensures r.Err? ==> r.error != Busy
  {
    var legs :- Legs(p);
    var currencies :- Currencies(env, legs.0, legs.1);
    var book :- PairBook(env, legs.0, legs.1, currencies.0, currencies.1);
    FinishQuery(env, p, book)
  }
}

=== FILE: results.dfy ===
/**
 * Optional values and error-or-value results, the shapes the handler's parsers and checks
 * return. `Result` and `Outcome` support `:-`, so a chain of checks stops at the first error.
 */
module Results {

  /** What a parser such as `to_currency` yields: a value, or nothing when it rejects the text. */
  datatype Option<+T> = None | Some(value: T) {

    /** The wrapped value, or `default` when there is none. */
    function GetOr(default: T): T {
      match this
      case Some(v) => v
      case None => default
    }
  }

  /** A validated value, or the RPC error that ends the request. */
  datatype Result<+T, +E> = Ok(value: T) | Err(error: E) {

    predicate IsFailure() {
      Err?
    }

    function PropagateFailure<U>(): Result<U, E>
      requires Err?
    {
      Err(error)
    }

    function Extract(): T
      requires Ok?
    {
      value
    }
  }

  /** The verdict of one check that yields no value. */
  datatype Outcome<+E> = Pass | Fail(error: E) {

    predicate IsFailure() {
      Fail?
    }

    function PropagateFailure<U>(): Result<U, E>
      requires Fail?
    {
      Err(error)
    }
  }

  /** Passes when `condition` holds, and fails with `error` otherwise. */
  function Need<E>(condition: bool, error: E): Outcome<E> {
    if condition then Pass else Fail(error)
  }
}

=== FILE: rpc_errors.dfy ===
/** The error replies the handler can produce. */
module RpcErrors {

  /** The RPC error codes the handler names directly. */
  datatype Code =
    | TooBusy
    | SrcCurMalformed
    | DstAmtMalformed
    | SrcIsrMalformed
    | DstIsrMalformed
    | BadMarket

  datatype RpcError =
      /** `rpcError(code)` or `make_error(code, message)`; the message is empty when none is given. */
    | Coded(code: Code, message: string)
      /** `missing_field_error(name)`. */
    | MissingField(name: string)
      /** `object_field_error(name)`. */
    | NotObject(name: string)
      /** `expected_field_error(name, kind)`. */
    | Expected(name: string, kind: string)
      /** `invalid_field_error(name)`. */
    | InvalidField(name: string)

  const Busy: RpcError := Coded(TooBusy, "")
}
